=== FILE: README.md ===
# Baby-bottle water-temperature monitor, modelled in Dafny

The monitor polls a 1-Wire water-temperature sensor once per tick. It
keeps a small state record: the current and previous reading, a threshold
of 30 degrees, a `has_changed` flag, a sticky `back_to_normal` flag, and a
buffer of at most 300 samples taken while the water cools above the
threshold. Each tick it may post the reading to a data-collection
endpoint. When the water comes back below the threshold, it sends one SMS
to every configured phone number, guarded by a `phone_notified` latch.

The model is functional. An immutable `Sensor` record is advanced by pure
`Read`, `ResetTemperatureBackToNormal` and `Flush` functions. The loop is
a pure `Gate` step and a pure `Tick`. Reporting is a pure `PlanReport`
that returns either nothing to send or one request.

Modules, following the program's files:

- `WaterTemperatureSensor` (`sensor.dfy`) models the sensor record and its per-reading state machine.
- `SensorRuns` (`sensor_runs.dfy`) models the sensor over a whole sequence of readings. It compares the result with reference definitions stated on the sequence itself: threshold edges, eligible readings, and the capped buffer.
- `DataCollection` (`data_collection.dfy`) models `collect_data`.
- `MainLoop` (`main_loop.dfy`) models `get_phone_numbers`, `publish_message_to_sms`, the `phone_notified` latch and one loop iteration.
- `Text` (`text.dfy`) models Rust's `str::trim` and single-character `str::split`.
- `Environment` (`environment.dfy`) models environment lookups with `expect`, `bool` parsing, and the ways the process can die.

Modelling choices:

- Readings are integer millidegrees. The device file holds thousandths of
  a degree, and the program divides them by 1000 into an `f32`.
- `current as u8 > 30` becomes a saturating truncation, `TruncateToU8`.
  For threshold 30 it holds exactly when the reading is at least 31000.
- `current > 30.0` becomes `current > 30000`.
- `current < last` and `current != last` are compared as integers.
- These rewrites assume the readings lie well inside ±8192 degrees. In
  that range, thousandths convert to `f32` in an order-preserving way, so
  the float comparisons agree with the integer ones.
- The instant recorded with a sample is a parameter of `Read`.
- The environment is a `map<string, string>`. Each `expect` or `unwrap`
  that would panic becomes a `Fatal` result that names its cause.
- In `main`, `temperature` is bound to the result of the non-test `read()`,
  and that result is `()`. The model uses the sensor's current reading as
  the temperature in the SMS (see below).

Behaviour of the code worth noting:

- `has_changed` compares the reading after truncation to `u8`, not the real number. A falling reading between 30 and 31 degrees is therefore sampled while `has_changed` stays false (`SampledBelowChangeThreshold`).
- The SMS goes out when the temperature comes back to normal, on the true-to-false edge of `has_changed`. Crossing above the threshold sends nothing.
- A report is due exactly when the current reading differs from the previous one.
- The endpoint's status is logged with `error!` whatever its value, and nothing branches on it.
- `main` does not type-check against the non-test sensor. Its `read()` returns `()`, which is neither printable with `{}` (`src/main.rs:55`) nor the `f32` that `publish_message_to_sms` takes (`src/main.rs:67`). Only the `cfg(test)` sensor, whose `read()` returns an `f32`, makes the program compile. The model follows the evident intent: the temperature passed on is the reading just taken.
- A transport failure while posting is fatal (`unwrap`).
- An enable flag that is neither `true` nor `false` after trimming ends the process.
- A missing `FROM_PHONE_NUMBER` ends the process with the message `PHONE_NUMBER must be set`. The model's failure names the variable that was actually read, `FROM_PHONE_NUMBER`.
- The report is posted before the SMS settings are read. A tick that dies on a missing SMS setting has still posted its report (`MainLoop.Tick`).

## Model

| member | source | states |
|---|---|---|
| WaterTemperatureSensor.New | src/devices/water_temperature_sensor.rs:74-84 | A new sensor has both readings 0, threshold 30, both flags false, an empty buffer, and satisfies the sensor invariant |
| WaterTemperatureSensor.TruncateToU8 | src/devices/water_temperature_sensor.rs:152-153 | The float-to-`u8` cast saturates: negative readings give 0, readings of 256 degrees or more give 255, and in between the result is the whole number of degrees |
| WaterTemperatureSensor.SetTemperatureHasChanged | src/devices/water_temperature_sensor.rs:151-163 | The flag becomes "truncated reading above threshold", and `backToNormal` is raised on a true-to-false edge and otherwise kept |
| WaterTemperatureSensor.ShouldCollectForSampling | src/devices/water_temperature_sensor.rs:146-149 | An eligible reading is below the previous one. On a valid sensor, eligibility is fixed for every reading: a falling reading is eligible if `hasChanged` is set, and also if it lies strictly between 30000 and 31000; an eligible reading with `hasChanged` clear lies in that band. `Read` appends to the buffer on this test |
| WaterTemperatureSensor.ShouldCollectData | src/devices/water_temperature_sensor.rs:118-120 | A report is due exactly when the reading differs from the previous one, and a reading that is not due is never eligible for sampling. `DataCollection.PlanReport` gates on this test |
| WaterTemperatureSensor.IsSamplingReadyAsWritten | src/devices/water_temperature_sensor.rs:122-129 | `is_sampling_ready` with its `> 300` boundary is false on every valid sensor. `SensorRuns.SamplingNeverReadyAsWritten` lifts this to every run |
| WaterTemperatureSensor.IsSamplingReady | src/devices/water_temperature_sensor.rs:122-129 | With the `>= 300` boundary, a valid sensor is ready exactly when its reading is eligible and the buffer holds 300 entries |
| WaterTemperatureSensor.Read | src/devices/water_temperature_sensor.rs:86-101 | The old current becomes last and the new reading becomes current. The threshold is unchanged. With threshold 30, `hasChanged` holds iff the reading is at least 31000. `backToNormal` is raised exactly on a true-to-false edge and never cleared. A sample is appended at the end iff the reading is above 30000, below the previous one, and the buffer has fewer than 300 entries. The sensor invariant is preserved |
| WaterTemperatureSensor.ResetTemperatureBackToNormal | src/devices/water_temperature_sensor.rs:114-116 | Only `backToNormal` changes, to false; the invariant is preserved |
| WaterTemperatureSensor.Flush | src/devices/water_temperature_sensor.rs:142-144 | Only the buffer changes, to empty; the invariant is preserved |
| WaterTemperatureSensor.FlushedIsNotReady | src/devices/water_temperature_sensor.rs:122-129 | Right after a flush, sampling is not ready |
| WaterTemperatureSensor.ThresholdExample | src/devices/water_temperature_sensor.rs:151-163 | Readings 31, 32, 29 degrees from a new sensor give `hasChanged` true, true, false and `backToNormal` false, false, true |
| WaterTemperatureSensor.SampledBelowChangeThreshold | src/devices/water_temperature_sensor.rs:146-153 | A falling reading of 30.5 degrees is sampled while `hasChanged` is false |
| SensorRuns.RunTracksReadings | src/devices/water_temperature_sensor.rs:88-96 | After any sequence of reads, current is the last reading, last is the one before, the threshold is unchanged and `hasChanged` reflects the last reading |
| SensorRuns.BackToNormalIffEdge | src/devices/water_temperature_sensor.rs:158-161 | After any sequence of reads, `backToNormal` is set iff it was set before or some reading was a true-to-false edge of the truncated comparison |
| SensorRuns.NoEdgeKeepsBackToNormal | src/devices/water_temperature_sensor.rs:158-161 | Reads with no true-to-false edge leave `backToNormal` as it was |
| SensorRuns.SamplesAreCappedEligibleReadings | src/devices/water_temperature_sensor.rs:97-101 | After any sequence of reads, the buffer is the old buffer followed by every reading that fell above the threshold, in order, cut at 300 entries |
| SensorRuns.RunPreservesValid | src/devices/water_temperature_sensor.rs:97-98 | From a valid sensor, any sequence of reads keeps the buffer at 300 entries or fewer, every entry above the threshold |
| SensorRuns.FallingRunFillsBuffer | src/devices/water_temperature_sensor.rs:97-101 | A run of readings that keep falling above the threshold grows the buffer by one per reading until it holds 300 |
| SensorRuns.SamplingNeverReadyAsWritten | src/devices/water_temperature_sensor.rs:122-129 | For every sequence of readings from a new sensor, `is_sampling_ready` as written returns false |
| SensorRuns.SamplingReadyIsReachable | src/devices/water_temperature_sensor.rs:122-129 | With the boundary `>= 300`, some sequence of readings from a new sensor makes sampling ready |
| Text.Trim | src/main.rs:19 | The result has no white space at either end, is no longer than the input, and contains no character the input lacks |
| Text.TrimIsUniqueDecomposition | src/main.rs:19 | Trimming white space + m + white space gives m, for every m without white space at its ends |
| Text.Split | src/main.rs:18 | Splitting on a character gives one more piece than there are separators, no piece holds the separator, and joining the pieces gives back the input |
| Text.SplitJoinRoundTrip | src/main.rs:18 | Splitting a join of separator-free pieces gives back exactly those pieces |
| Environment.Require | src/data_collection.rs:7-8 | A variable lookup yields the variable's value if it is set and is fatal, naming the variable, if not |
| Environment.ParseBool | src/data_collection.rs:10 | Only `true` and `false` parse; anything else is an error |
| DataCollection.PlanReport | src/data_collection.rs:6-25 | A missing enable flag is fatal, and so is a trimmed flag other than `true` or `false`. On a tick that reports, a missing URL is the fatal cause, and otherwise a missing secret is. Nothing is planned iff the flag is `false`, or it is `true` and the reading is unchanged. A request is planned iff the flag is `true`, the reading changed, and the URL and secret are set. The request goes to the URL with exactly the JSON content-type header and the auth header carrying the secret. Its body maps only `temperature_in_celcius` to the current reading |
| DataCollection.Report | src/data_collection.rs:26-30 | Any HTTP status leaves the outcome as planned. The tick dies iff planning is fatal or a planned request meets a transport failure: a fatal plan keeps its cause, and a transport failure is `TransportFailed` |
| DataCollection.IdleTickIgnoresUrlAndSecret | src/data_collection.rs:10-20 | On a tick that does not report, the outcome depends only on the enable flag; a missing URL or secret is not fatal then |
| MainLoop.PhoneNumbers | src/main.rs:15-21 | The number list has one more entry than there are commas; no entry holds a comma or has white space at its ends |
| MainLoop.PhoneNumbersOfPaddedList | src/main.rs:15-21 | A comma-joined list of numbers, each padded with any white space on either side, is read back as exactly the numbers, in order |
| MainLoop.SmsMessages | src/main.rs:23-42 | The Twilio id, token, destination list and sender must all be set, and are read in that order; the first missing one, the sender included, is the fatal cause. Otherwise one message per destination, in order, from the sender, with the reading |
| MainLoop.Gate | src/main.rs:61-69 | An SMS is sent iff the flag is raised and the latch is idle, and then the latch becomes notified and the flag stays raised. Flag raised with the latch notified clears both without sending. Flag lowered changes nothing |
| MainLoop.Start | src/main.rs:49-51 | The loop starts with an idle latch and a new sensor, satisfying the loop invariant |
| MainLoop.Advance | src/main.rs:53-69 | One tick keeps the buffer that `read` produced and keeps the loop invariant (latch equals flag; notified implies not above threshold). Under the invariant, it alerts iff the reading is a true-to-false edge, and the latch is set after the tick exactly when it alerted |
| MainLoop.AlertIsFollowedByReset | src/main.rs:61-69 | From any state, the tick after an alert sends nothing and leaves both the latch and the flag cleared |
| MainLoop.RunLoopTracksReadings | src/main.rs:52-70 | Any number of ticks keep the loop invariant, keep the threshold, and leave `hasChanged` reflecting the last reading |
| MainLoop.AlertsAreEdges | src/main.rs:52-70 | Over any run from a state satisfying the invariant, the number of alerts equals the number of true-to-false edges among the readings |
| MainLoop.AlertsFromStartAreEdges | src/main.rs:49-70 | From start-up, alerts and true-to-false edges are counted alike: at most one SMS per return to normal |
| MainLoop.Tick | src/main.rs:52-70 | A tick dies iff reporting is fatal or an alert is due and the SMS configuration is incomplete. A fatal report records no answered request. Otherwise the request the endpoint answered, if any, is kept in the outcome, even when the SMS step then dies. Whenever reporting succeeded, a death names the missing SMS setting. A tick that continues has the state of `Advance`, the planned request, and messages iff `Advance` alerts |

## Findings

| source | as written | input that shows it | evidently intended | confidence | as-written member | corrected member |
|---|---|---|---|---|---|---|
| src/devices/water_temperature_sensor.rs:122-129 | `is_sampling_ready` requires more than `SAMPLING_SIZE` (300) entries, but `read` appends only while there are fewer than 300, so it can never return true | a new sensor, one reading of 50 degrees, then 300 readings falling from 40 degrees by one thousandth: the buffer is full, the water is still cooling above 30 degrees, and readiness is false | readiness once the buffer is full, `len() >= SAMPLING_SIZE` | high that the as-written guard is unreachable, medium on the intent; not executed | SensorRuns.SamplingNeverReadyAsWritten | SensorRuns.SamplingReadyIsReachable |

`WaterTemperatureSensor.IsSamplingReady` is the corrected predicate, and
`WaterTemperatureSensor.IsSamplingReadyAsWritten` is the original. The
main loop calls neither.

## Left out

- Sensor discovery, `get_temperature_filepath`, is left out. It enumerates a system directory in an unspecified order, and the file path is not part of the record.
- Reading and parsing the device file, and the `unwrap`s on it, are left out. The reading is a parameter of `Read`.
- The one-second sleeps, the log lines and the `info!` of the current temperature in the loop are left out. They have no effect on state.
- `get_cooling_rate_per_sec` is left out. It is `f32` division by whole wall-clock seconds and is never called from `main`. It needs a non-empty buffer, or the `first().unwrap()` panics. It divides by zero when the first and last samples are less than one whole second apart, a one-entry buffer included, because `num_seconds()` truncates.
- The `cfg(test)` mock sensor is left out. It returns canned values and is not the program's behaviour.
- The Twilio and `reqwest` clients, `tokio` and the HTTP wire format are left out. A request and the SMS messages are returned as values, and a send's outcome is the `Delivery` parameter.
- The decimal text of the temperature in the SMS body, `"The temperature is {}"`, is left out. Float formatting is not modelled, so a message carries the reading in millidegrees.
- DataCollection.PlanReport: the body's `temperature_in_celcius` value is the reading in millidegrees, an integer. The program sends the reading in degrees as an `f32` JSON number. Float conversion and JSON number formatting are not modelled.
- An environment variable that is set but is not valid Unicode is left out. The model treats every set variable as text.
- The getters `is_temperature_back_to_normal` and `get_temperature_has_changed` have no members of their own. They are the record's field selectors `backToNormal` and `hasChanged`.
- `src/loggings.rs` and `src/helpers.rs` are left out. They hold a file logger and clock-based file naming, with no logic beyond I/O.
- f32 arithmetic is left out. Readings far outside the sensor's physical range, where thousandths no longer convert to distinct floats, are not modelled.

=== FILE: data_collection.dfy ===
/**
  `collect_data`: on every tick, decide whether the current reading is
  posted to the collection endpoint, and build the request. The HTTP
  client is not modelled: the request is returned as a value, and the
  outcome of sending it is a parameter.
 */
module DataCollection {
  import opened Text
  import opened Environment
  import opened WaterTemperatureSensor

  const EnabledVar := "DATA_COLLECTION_ENABLED"
  const UrlVar := "DATA_COLLECTION_URL"
  const SecretVar := "DATA_COLLECTION_SECRET"

  /** The single key of the JSON body, spelled as the endpoint expects it. */
  const TemperatureKey := "temperature_in_celcius"

  datatype Header = Header(name: string, value: string)

  /** A POST to `url`; the body is a JSON object of readings in millidegrees. */
  datatype Request = Request(url: string, headers: seq<Header>, body: map<string, int>)

  /** What the HTTP client reports back: a status, or a failure to get one. */
  datatype Delivery = Responded(status: int) | TransportError

  /** Collection is switched on: the trimmed flag reads `true`. */
  predicate IsEnabled(env: Env) {
    EnabledVar in env && Trim(env[EnabledVar]) == "true"
  }

  /**
    Everything `collect_data` decides before sending: end the process, do
    nothing, or post one request.
   */
  function PlanReport(env: Env, s: Sensor): (r: Result<Option<Request>>)
    ensures r == Fatal(MissingVariable(EnabledVar)) <==> EnabledVar !in env
    ensures r.Fatal? && r.failure.NotABool?
            <==> EnabledVar in env && Trim(env[EnabledVar]) != "true"
                 && Trim(env[EnabledVar]) != "false"
    ensures r == Ok(None)
            <==> EnabledVar in env
                 && (Trim(env[EnabledVar]) == "false"
                     || (Trim(env[EnabledVar]) == "true" && s.current == s.last))
    ensures r.Ok? && r.value.Some?
            <==> IsEnabled(env) && s.current != s.last && UrlVar in env && SecretVar in env
    ensures r.Ok? && r.value.Some? ==>
              && r.value.value.url == env[UrlVar]
              && r.value.value.headers
                 == [Header("Content-Type", "application/json"),
                     Header("X-Require-Whisk-Auth", env[SecretVar])]
              && r.value.value.body.Keys == {TemperatureKey}
              && r.value.value.body[TemperatureKey] == s.current
    ensures IsEnabled(env) && s.current != s.last && UrlVar !in env
            ==> r == Fatal(MissingVariable(UrlVar))
    ensures IsEnabled(env) && s.current != s.last && UrlVar in env && SecretVar !in env
            ==> r == Fatal(MissingVariable(SecretVar))
  {
    match Require(env, EnabledVar)
    case Fatal(e) => Fatal(e)
    case Ok(text) =>
      match ParseBool(Trim(text))
      case None => Fatal(NotABool(text))
      case Some(enabled) =>
        if !(enabled && ShouldCollectData(s)) then Ok(None)
        else
          var body := map[TemperatureKey := s.current];
          match Require(env, UrlVar)
          case Fatal(e) => Fatal(e)
          case Ok(url) =>
            match Require(env, SecretVar)
            case Fatal(e) => Fatal(e)
            case Ok(secret) =>
              var headers := [Header("Content-Type", "application/json"),
                              Header("X-Require-Whisk-Auth", secret)];
              Ok(Some(Request(url, headers, body)))
  }

  /**
    `collect_data` in full: a planned request is sent once; any status the
    endpoint answers with is only logged, and a transport failure ends the
    process.
   */
  function Report(env: Env, s: Sensor, delivery: Delivery): (r: Result<Option<Request>>)
    ensures delivery.Responded? ==> r == PlanReport(env, s)
    ensures r.Fatal?
            <==> PlanReport(env, s).Fatal?
                 || (PlanReport(env, s).Ok? && PlanReport(env, s).value.Some?
                     && delivery.TransportError?)
    ensures r.Ok? ==> r == PlanReport(env, s)
    ensures PlanReport(env, s).Fatal? ==> r == PlanReport(env, s)
    ensures PlanReport(env, s).Ok? && PlanReport(env, s).value.Some? && delivery.TransportError?
            ==> r == Fatal(TransportFailed)
  {
    match PlanReport(env, s)
    case Fatal(e) => Fatal(e)
    case Ok(None) => Ok(None)
    case Ok(Some(request)) =>
      if delivery.TransportError? then Fatal(TransportFailed) else Ok(Some(request))
  }

  /**
    On a tick that does not report, the URL and the secret are never
    looked at: two environments that agree on the enable flag give the
    same outcome, even if one of them lacks the URL or the secret.
   */
  lemma IdleTickIgnoresUrlAndSecret(env1: Env, env2: Env, s: Sensor, d1: Delivery, d2: Delivery)
    requires EnabledVar in env1 <==> EnabledVar in env2
    requires EnabledVar in env1 ==> env1[EnabledVar] == env2[EnabledVar]
    requires !(IsEnabled(env1) && ShouldCollectData(s))
    ensures Report(env1, s, d1) == Report(env2, s, d2)
    ensures Report(env1, s, d1).Ok? ==> Report(env1, s, d1).value == None
  {
  }
}

=== FILE: environment.dfy ===
/**
  The process environment as the monitor sees it, and the way it fails.
  Every `env::var(NAME).expect(..)` of the program either yields the
  variable's text or ends the process; the model returns that ending as a
  `Fatal` value instead.
 */
module Environment {

  datatype Option<T> = None | Some(value: T)

  /** The environment variables visible to the process. */
  type Env = map<string, string>

  /** Why the process ends: every one of these is a panic in the program. */
  datatype Failure =
    | MissingVariable(name: string)   // `env::var(..).expect(..)`
    | NotABool(text: string)          // `parse::<bool>().unwrap()`
    | TransportFailed                 // `send().await.unwrap()`

  datatype Result<T> = Ok(value: T) | Fatal(failure: Failure)

  /** `env::var(name).expect(..)`. */
  function Require(env: Env, name: string): (r: Result<string>)
    ensures r.Ok? <==> name in env
    ensures r.Ok? ==> r.value == env[name]
    ensures r.Fatal? ==> r.failure == MissingVariable(name)
  {
    if name in env then Ok(env[name]) else Fatal(MissingVariable(name))
  }

  /** `str::parse::<bool>`: exactly the words `true` and `false`, case included. */
  function ParseBool(text: string): (r: Option<bool>)
    ensures r == Some(true) ==> text == "true"
    ensures r == Some(false) ==> text == "false"
    ensures r == None <==> text != "true" && text != "false"
  {
    if text == "true" then Some(true)
    else if text == "false" then Some(false)
    else None
  }
}

=== FILE: main_loop.dfy ===
/**
  The polling loop of `main`: each tick reads the sensor, reports the
  reading, and passes the sensor's sticky `backToNormal` flag through the
  `phoneNotified` latch, which decides whether an SMS alert goes out.
  Sleeps, logging and the Twilio client are not modelled; the alert is
  returned as the list of messages the program would send.
 */
module MainLoop {
  import opened Text
  import opened Environment
  import opened WaterTemperatureSensor
  import opened SensorRuns
  import opened DataCollection

  const ToNumbersVar := "TO_PHONE_NUMBERS"
  const FromNumberVar := "FROM_PHONE_NUMBER"
  const AccountIdVar := "TWILIO_ACCOUNT_ID"
  const AuthTokenVar := "TWILIO_AUTH_TOKEN"

  /**
    `get_phone_numbers` applied to the variable's text: split on commas,
    trim every piece. Empty pieces are kept.
   */
  function PhoneNumbers(raw: string): (r: seq<string>)
    ensures |r| == Count(raw, ',') + 1
    ensures forall i :: 0 <= i < |r| ==> Excludes(r[i], ',') && IsTrimmed(r[i])
  {
    var parts := Split(raw, ',');
    seq(|parts|, i requires 0 <= i < |parts| => Trim(parts[i]))
  }

  /** Each number with its own white-space padding on either side. */
  function Padded(pre: seq<string>, numbers: seq<string>, post: seq<string>): seq<string>
    requires |pre| == |numbers| == |post|
  {
    seq(|numbers|, i requires 0 <= i < |numbers| => pre[i] + numbers[i] + post[i])
  }

  /**
    A comma-separated list of numbers, each padded with any white space,
    is read back as exactly the numbers: the entries are the pieces'
    contents, not merely some trimmed strings.
   */
  lemma PhoneNumbersOfPaddedList(pre: seq<string>, numbers: seq<string>, post: seq<string>)
    requires |numbers| >= 1 && |pre| == |numbers| == |post|
    requires forall i :: 0 <= i < |numbers| ==>
               && AllWhitespace(pre[i]) && AllWhitespace(post[i]) && IsTrimmed(numbers[i])
               && Excludes(pre[i] + numbers[i] + post[i], ',')
    ensures PhoneNumbers(Join(Padded(pre, numbers, post), ',')) == numbers
  {
    var padded := Padded(pre, numbers, post);
    var parts := Split(Join(padded, ','), ',');
    assert parts == padded by {
      assert NoneContains(padded, ',');
      SplitJoinRoundTrip(padded, ',');
    }
    forall i | 0 <= i < |numbers|
      ensures Trim(padded[i]) == numbers[i]
    {
      TrimIsUniqueDecomposition(pre[i], numbers[i], post[i]);
    }
  }

  /** An outbound SMS; the temperature is the reading in millidegrees. */
  datatype Message = Message(from: string, to: string, temperature: int)

  /**
    `publish_message_to_sms`: the four variables are required in the
    order the program reads them, then one message goes to every number.
    Each send's response is only logged, so sending never fails here.
   */
  function SmsMessages(env: Env, temperature: int): (r: Result<seq<Message>>)
    ensures r.Ok? <==> AccountIdVar in env && AuthTokenVar in env
                       && ToNumbersVar in env && FromNumberVar in env
    ensures AccountIdVar !in env ==> r == Fatal(MissingVariable(AccountIdVar))
    ensures AccountIdVar in env && AuthTokenVar !in env
            ==> r == Fatal(MissingVariable(AuthTokenVar))
    ensures AccountIdVar in env && AuthTokenVar in env && ToNumbersVar !in env
            ==> r == Fatal(MissingVariable(ToNumbersVar))
    ensures AccountIdVar in env && AuthTokenVar in env && ToNumbersVar in env
            && FromNumberVar !in env
            ==> r == Fatal(MissingVariable(FromNumberVar))
    ensures r.Ok? ==>
              && |r.value| == |PhoneNumbers(env[ToNumbersVar])|
              && forall i :: 0 <= i < |r.value| ==>
                   r.value[i] == Message(env[FromNumberVar], PhoneNumbers(env[ToNumbersVar])[i], temperature)
    ensures r.Ok? ==> |r.value| >= 1
  {
    match Require(env, AccountIdVar)
    case Fatal(e) => Fatal(e)
    case Ok(_) =>
      match Require(env, AuthTokenVar)
      case Fatal(e) => Fatal(e)
      case Ok(_) =>
        match Require(env, ToNumbersVar)
        case Fatal(e) => Fatal(e)
        case Ok(raw) =>
          var numbers := PhoneNumbers(raw);
          match Require(env, FromNumberVar)
          case Fatal(e) => Fatal(e)
          case Ok(from) =>
            Ok(seq(|numbers|, i requires 0 <= i < |numbers| => Message(from, numbers[i], temperature)))
  }

  /** What the latch decides on one tick. */
  datatype GateOutcome = GateOutcome(phoneNotified: bool, backToNormal: bool, sendSms: bool)

  /**
    The latch of the loop body: with the flag raised, a notified latch is
    cleared together with the flag, and an idle latch sends the alert and
    becomes notified, leaving the flag raised; with the flag lowered,
    nothing happens.
   */
  function Gate(phoneNotified: bool, backToNormal: bool): (r: GateOutcome)
    ensures r.sendSms <==> backToNormal && !phoneNotified
    ensures phoneNotified && backToNormal
            ==> !r.phoneNotified && !r.backToNormal && !r.sendSms
    ensures backToNormal && !phoneNotified ==> r.phoneNotified && r.backToNormal
    ensures !backToNormal
            ==> r.phoneNotified == phoneNotified && !r.backToNormal && !r.sendSms
    ensures r.backToNormal ==> backToNormal
  {
    if phoneNotified && backToNormal then GateOutcome(false, false, false)
    else if backToNormal && !phoneNotified then GateOutcome(true, true, true)
    else GateOutcome(phoneNotified, backToNormal, false)
  }

  /** Everything the loop keeps from one tick to the next. */
  datatype LoopState = LoopState(sensor: Sensor, phoneNotified: bool)

  /** Before the first tick. */
  function Start(): (r: LoopState)
    ensures LoopInv(r)
    ensures !r.phoneNotified && r.sensor == New()
  {
    LoopState(New(), false)
  }

  /**
    At every tick boundary the latch and the sticky flag agree, and a
    notified latch means the last reading was not above the threshold.
   */
  predicate LoopInv(l: LoopState) {
    && Valid(l.sensor)
    && l.phoneNotified == l.sensor.backToNormal
    && (l.phoneNotified ==> !l.sensor.hasChanged)
  }

  datatype Step = Step(next: LoopState, alert: bool)

  /** The state part of one tick: the read, then the latch. */
  function Advance(l: LoopState, x: Reading): (r: Step)
    ensures r.next.sensor.current == x.milli && r.next.sensor.last == l.sensor.current
    ensures r.next.sensor.threshold == l.sensor.threshold
    ensures r.next.sensor.hasChanged <==> IsAbove(l.sensor.threshold, x.milli)
    ensures LoopInv(l) ==> LoopInv(r.next)
    ensures LoopInv(l) ==> (r.alert <==> IsFall(l.sensor.hasChanged, l.sensor.threshold, x.milli))
    ensures r.alert ==> r.next.phoneNotified && r.next.sensor.backToNormal
    ensures r.next.sensor.samples == Read(l.sensor, x.milli, x.at).samples
    ensures LoopInv(l) ==> (r.next.phoneNotified <==> r.alert)
  {
    var sensor := Read(l.sensor, x.milli, x.at);
    var g := Gate(l.phoneNotified, sensor.backToNormal);
    var after := if g.backToNormal then sensor else ResetTemperatureBackToNormal(sensor);
    Step(LoopState(after, g.phoneNotified), g.sendSms)
  }

  /**
    Whatever the state, the tick after an alert sends nothing and clears
    both the latch and the flag: `read` cannot lower the flag in between.
   */
  lemma AlertIsFollowedByReset(l: LoopState, x: Reading, y: Reading)
    requires Advance(l, x).alert
    ensures var after := Advance(Advance(l, x).next, y);
            !after.alert && !after.next.phoneNotified && !after.next.sensor.backToNormal
  {
  }

  /** The loop state after the readings, in order. */
  function RunLoop(l: LoopState, xs: seq<Reading>): LoopState
    decreases |xs|
  {
    if xs == [] then l else Advance(RunLoop(l, xs[..|xs| - 1]), xs[|xs| - 1]).next
  }

  /** How many ticks of the run send an alert. */
  function AlertCount(l: LoopState, xs: seq<Reading>): nat
    decreases |xs|
  {
    if xs == [] then 0
    else
      var n := |xs| - 1;
      AlertCount(l, xs[..n]) + (if Advance(RunLoop(l, xs[..n]), xs[n]).alert then 1 else 0)
  }

  /** How many readings of the run are true-to-false edges. */
  function EdgeCount(s: Sensor, xs: seq<Reading>): nat
    decreases |xs|
  {
    if xs == [] then 0
    else
      var n := |xs| - 1;
      EdgeCount(s, xs[..n]) + (if IsEdge(s, xs, n) then 1 else 0)
  }

  lemma {:induction false} RunLoopTracksReadings(l: LoopState, xs: seq<Reading>)
    requires LoopInv(l)
    ensures LoopInv(RunLoop(l, xs))
    ensures RunLoop(l, xs).sensor.threshold == l.sensor.threshold
    ensures xs == [] ==> RunLoop(l, xs) == l
    ensures xs != [] ==> (RunLoop(l, xs).sensor.hasChanged <==> IsAbove(l.sensor.threshold, xs[|xs| - 1].milli))
    decreases |xs|
  {
    if xs != [] {
      RunLoopTracksReadings(l, xs[..|xs| - 1]);
    }
  }

  /**
    From any state satisfying the invariant, the loop alerts exactly on
    the ticks whose reading is a true-to-false edge: one SMS per return
    to normal, never one for crossing above the threshold, and never two
    for the same episode.
   */
  lemma {:induction false} AlertsAreEdges(l: LoopState, xs: seq<Reading>)
    requires LoopInv(l)
    ensures AlertCount(l, xs) == EdgeCount(l.sensor, xs)
    decreases |xs|
  {
    if xs != [] {
      var n := |xs| - 1;
      AlertsAreEdges(l, xs[..n]);
      var before := RunLoop(l, xs[..n]);
      RunLoopTracksReadings(l, xs[..n]);
      assert before.sensor.hasChanged == WasAbove(l.sensor, xs, n) by {
        if n == 0 {
          assert xs[..n] == [];
        } else {
          assert xs[..n][n - 1] == xs[n - 1];
        }
      }
      assert Advance(before, xs[n]).alert <==> IsEdge(l.sensor, xs, n);
    }
  }

  /** From start-up, alerts and edges are counted alike. */
  lemma AlertsFromStartAreEdges(xs: seq<Reading>)
    ensures AlertCount(Start(), xs) == EdgeCount(New(), xs)
  {
    AlertsAreEdges(Start(), xs);
  }

  /**
    What one tick produces. `Continued` carries the next state; `Died` is
    the process ending on that tick. Both record the request the endpoint
    answered, if any: a report posted before a failing SMS step has still
    been posted.
   */
  datatype TickOutcome =
    | Continued(next: LoopState, posted: Option<Request>, messages: seq<Message>)
    | Died(posted: Option<Request>, failure: Failure)

  /**
    One iteration of the loop, side effects included: the reading, the
    report (whose transport result is `delivery`), and the alert.
   */
  function Tick(l: LoopState, x: Reading, env: Env, delivery: Delivery): (r: TickOutcome)
    ensures var report := Report(env, Read(l.sensor, x.milli, x.at), delivery);
            && (r.Died? <==> report.Fatal? || (Advance(l, x).alert && SmsMessages(env, x.milli).Fatal?))
            && (report.Fatal? ==> r == Died(None, report.failure))
            && (report.Ok? ==> r.posted == report.value)
    ensures r.Died? && Report(env, Read(l.sensor, x.milli, x.at), delivery).Ok?
            ==> r.failure == SmsMessages(env, x.milli).failure
    ensures r.Continued? ==> r.next == Advance(l, x).next
    ensures r.Continued? ==> r.posted == PlanReport(env, Read(l.sensor, x.milli, x.at)).value
    ensures r.Continued? ==> (|r.messages| > 0 <==> Advance(l, x).alert)
    ensures r.Continued? && Advance(l, x).alert ==> r.messages == SmsMessages(env, x.milli).value
  {
    var sensor := Read(l.sensor, x.milli, x.at);
    match Report(env, sensor, delivery)
    case Fatal(e) => Died(None, e)
    case Ok(posted) =>
      var step := Advance(l, x);
      if !step.alert then Continued(step.next, posted, [])
      else
        match SmsMessages(env, sensor.current)
        case Fatal(e) => Died(posted, e)
        case Ok(messages) => Continued(step.next, posted, messages)
  }
}

=== FILE: sensor.dfy ===
/**
  The water-temperature sensor record and its per-reading state machine:
  current and previous reading, the fixed threshold, the `hasChanged`
  flag, the sticky `backToNormal` flag and the bounded buffer of samples
  taken while the water cools above the threshold.

  Readings are integer thousandths of a degree Celsius, the unit the
  device file holds; the program divides by 1000 into an `f32`, and the
  model keeps the integer and rewrites each float comparison as the
  equivalent integer comparison.
 */
module WaterTemperatureSensor {

  /** A wall-clock instant, as supplied by the caller at each reading. */
  type Instant = int

  /** Rust's `u8`. */
  type U8 = x: int | 0 <= x < 256

  /** Capacity of the sampling buffer. */
  const SamplingSize: nat := 300

  /** The threshold every sensor is created with, in whole degrees. */
  const DefaultThreshold: U8 := 30

  /**
    A reading in millidegrees and the instant it was taken; the sampling
    buffer holds such pairs.
   */
  datatype Reading = Reading(at: Instant, milli: int)

  datatype Sensor = Sensor(
    current: int,          // millidegrees
    last: int,             // millidegrees, the reading before `current`
    threshold: U8,         // whole degrees
    hasChanged: bool,
    backToNormal: bool,
    samples: seq<Reading>)

  /**
    `(milli / 1000.0) as u8`: truncation toward zero, saturating at the
    ends of `u8`, so every negative reading gives 0 and every reading of
    256 degrees or more gives 255.
   */
  function TruncateToU8(milli: int): (r: U8)
    ensures milli < 0 ==> r == 0
    ensures 0 <= milli < 256000 ==> r * 1000 <= milli < (r + 1) * 1000
    ensures 256000 <= milli ==> r == 255
  {
    if milli < 0 then 0 else if milli / 1000 > 255 then 255 else milli / 1000
  }

  /** The comparison behind `hasChanged`: the truncated reading exceeds the threshold. */
  predicate IsAbove(threshold: U8, milli: int) {
    TruncateToU8(milli) > threshold
  }

  /**
    A reading takes the flag from above the threshold to not above it:
    the edge that raises `backToNormal`.
   */
  predicate IsFall(wasAbove: bool, threshold: U8, milli: int) {
    wasAbove && !IsAbove(threshold, milli)
  }

  /**
    `should_collect_for_sampling`: above the threshold as a real number,
    and falling. An eligible reading is always a changed one, and on a
    valid sensor it may lie below the flag's truncated boundary.
   */
  function ShouldCollectForSampling(s: Sensor): (b: bool)
    ensures b ==> s.current < s.last
    ensures Valid(s) && s.hasChanged && s.current < s.last ==> b
    ensures Valid(s) && 30000 < s.current < 31000 && s.current < s.last ==> b
    ensures Valid(s) && b && !s.hasChanged ==> 30000 < s.current < 31000
  {
    s.current > s.threshold * 1000 && s.current < s.last
  }

  /** `should_collect_data`: the reading differs from the previous one. */
  function ShouldCollectData(s: Sensor): (b: bool)
    ensures !b ==> s.current == s.last && !ShouldCollectForSampling(s)
    ensures s.current == s.last ==> !b
  {
    s.current != s.last
  }

  /** What every reachable sensor satisfies. */
  predicate Valid(s: Sensor) {
    && s.threshold == DefaultThreshold
    && |s.samples| <= SamplingSize
    && (s.hasChanged <==> IsAbove(s.threshold, s.current))
    && forall i :: 0 <= i < |s.samples| ==> s.samples[i].milli > s.threshold * 1000
  }

  /** `WaterTemperatureSensor::new`, without the device-file lookup. */
  function New(): (r: Sensor)
    ensures r.current == 0 && r.last == 0
    ensures r.threshold == 30
    ensures !r.hasChanged && !r.backToNormal
    ensures r.samples == []
    ensures Valid(r)
  {
    Sensor(0, 0, DefaultThreshold, false, false, [])
  }

  /**
    `set_temperature_has_changed`: recompute the flag from the current
    reading and raise `backToNormal` on a true-to-false edge.
   */
  function SetTemperatureHasChanged(s: Sensor): (r: Sensor)
    ensures r.hasChanged <==> IsAbove(s.threshold, s.current)
    ensures r.backToNormal <==> s.backToNormal || (s.hasChanged && !r.hasChanged)
    ensures r.current == s.current && r.last == s.last && r.threshold == s.threshold
    ensures r.samples == s.samples
  {
    var changed := IsAbove(s.threshold, s.current);
    s.(hasChanged := changed, backToNormal := s.backToNormal || IsFall(s.hasChanged, s.threshold, s.current))
  }

  /**
    `read`, given the new reading (in millidegrees) and the instant it was
    taken: shift, store, recompute the flags, and sample if eligible.
   */
  function Read(s: Sensor, milli: int, now: Instant): (r: Sensor)
    ensures r.last == s.current && r.current == milli && r.threshold == s.threshold
    ensures r.hasChanged <==> TruncateToU8(milli) > s.threshold
    ensures s.threshold == 30 ==> (r.hasChanged <==> milli >= 31000)
    ensures r.backToNormal <==> s.backToNormal || (s.hasChanged && !r.hasChanged)
    ensures s.backToNormal ==> r.backToNormal
    ensures var push := milli > s.threshold * 1000 && milli < s.current
                        && |s.samples| < SamplingSize;
            r.samples == if push then s.samples + [Reading(now, milli)] else s.samples
    ensures Valid(s) ==> Valid(r)
  {
    var shifted := s.(last := s.current, current := milli);
    var flagged := SetTemperatureHasChanged(shifted);
    if ShouldCollectForSampling(flagged) && |flagged.samples| < SamplingSize then
      flagged.(samples := flagged.samples + [Reading(now, flagged.current)])
    else
      flagged
  }

  /** `reset_temperature_back_to_normal`: lowers the sticky flag and nothing else. */
  function ResetTemperatureBackToNormal(s: Sensor): (r: Sensor)
    ensures !r.backToNormal
    ensures r.current == s.current && r.last == s.last && r.threshold == s.threshold
    ensures r.hasChanged == s.hasChanged && r.samples == s.samples
    ensures Valid(s) ==> Valid(r)
  {
    s.(backToNormal := false)
  }

  /** `flush`: empties the sampling buffer and nothing else. */
  function Flush(s: Sensor): (r: Sensor)
    ensures r.samples == []
    ensures r.current == s.current && r.last == s.last && r.threshold == s.threshold
    ensures r.hasChanged == s.hasChanged && r.backToNormal == s.backToNormal
    ensures Valid(s) ==> Valid(r)
  {
    s.(samples := [])
  }

  /**
    `is_sampling_ready` as the program writes it: eligible for sampling
    and MORE than `SamplingSize` entries, which the buffer never holds.
   */
  function IsSamplingReadyAsWritten(s: Sensor): (b: bool)
    ensures Valid(s) ==> !b
    ensures b ==> IsSamplingReady(s)
  {
    ShouldCollectForSampling(s) && |s.samples| > SamplingSize
  }

  /**
    `is_sampling_ready` with the boundary the append guard implies: on a
    valid sensor, ready exactly when the reading is eligible and the
    buffer is full.
   */
  function IsSamplingReady(s: Sensor): (b: bool)
    ensures Valid(s) ==> (b <==> ShouldCollectForSampling(s) && |s.samples| == SamplingSize)
  {
    ShouldCollectForSampling(s) && |s.samples| >= SamplingSize
  }

  /** Once the buffer is flushed, sampling is not ready, whichever boundary is used. */
  lemma FlushedIsNotReady(s: Sensor)
    ensures !IsSamplingReady(Flush(s)) && !IsSamplingReadyAsWritten(Flush(s))
  {
  }

  /**
    Readings of 31, 32 and 29 degrees from a new sensor: the flag follows
    the truncated reading, and `backToNormal` rises on the fall.
   */
  lemma ThresholdExample()
    ensures var s1 := Read(New(), 31000, 1);
            var s2 := Read(s1, 32000, 2);
            var s3 := Read(s2, 29000, 3);
            && s1.hasChanged && s2.hasChanged && !s3.hasChanged
            && !s1.backToNormal && !s2.backToNormal && s3.backToNormal
  {
  }

  /**
    A reading strictly between 30 and 31 degrees that is falling is
    sampled although `hasChanged` stays false: the two comparisons use
    different views of the same reading.
   */
  lemma SampledBelowChangeThreshold()
    ensures var s := Read(Read(New(), 30900, 1), 30500, 2);
            !s.hasChanged && s.samples == [Reading(2, 30500)]
  {
  }
}

=== FILE: sensor_runs.dfy ===
/**
  The sensor over a whole sequence of readings, with no reset or flush in
  between, compared against reference definitions stated directly on the
  sequence: the flags follow the readings' threshold edges, and the buffer
  holds the first readings that were falling above the threshold.
 */
module SensorRuns {
  import opened WaterTemperatureSensor

  /** Feeds the readings to the sensor in order. */
  function RunReads(s: Sensor, rs: seq<Reading>): Sensor
    decreases |rs|
  {
    if rs == [] then s
    else
      var n := |rs| - 1;
      Read(RunReads(s, rs[..n]), rs[n].milli, rs[n].at)
  }

  /** The reading that precedes reading `i`. */
  function PreviousMilli(s: Sensor, rs: seq<Reading>, i: nat): int
    requires i < |rs|
  {
    if i == 0 then s.current else rs[i - 1].milli
  }

  /** Whether the sensor was above the threshold just before reading `i`. */
  predicate WasAbove(s: Sensor, rs: seq<Reading>, i: nat)
    requires i < |rs|
  {
    if i == 0 then s.hasChanged else IsAbove(s.threshold, rs[i - 1].milli)
  }

  /** Reading `i` takes the sensor from above the threshold to not above it. */
  predicate IsEdge(s: Sensor, rs: seq<Reading>, i: nat)
    requires i < |rs|
  {
    IsFall(WasAbove(s, rs, i), s.threshold, rs[i].milli)
  }

  /** Reading `i` is above the threshold (as a real number) and below its predecessor. */
  predicate IsEligible(s: Sensor, rs: seq<Reading>, i: nat)
    requires i < |rs|
  {
    rs[i].milli > s.threshold * 1000 && rs[i].milli < PreviousMilli(s, rs, i)
  }

  /** Every eligible reading, in order, as a buffer entry. */
  function EligibleSamples(s: Sensor, rs: seq<Reading>): seq<Reading>
    decreases |rs|
  {
    if rs == [] then []
    else
      var n := |rs| - 1;
      EligibleSamples(s, rs[..n])
      + (if IsEligible(s, rs, n) then [rs[n]] else [])
  }

  /** The first `SamplingSize` entries. */
  function Cap(xs: seq<Reading>): seq<Reading> {
    if |xs| <= SamplingSize then xs else xs[..SamplingSize]
  }

  /** After a run, the sensor holds the last reading and the one before it. */
  lemma {:induction false} RunTracksReadings(s: Sensor, rs: seq<Reading>)
    ensures RunReads(s, rs).threshold == s.threshold
    ensures |rs| > 0 ==> RunReads(s, rs).current == rs[|rs| - 1].milli
    ensures |rs| > 0 ==> RunReads(s, rs).last == PreviousMilli(s, rs, |rs| - 1)
    ensures |rs| > 0 ==> (RunReads(s, rs).hasChanged <==> IsAbove(s.threshold, rs[|rs| - 1].milli))
    ensures rs == [] ==> RunReads(s, rs) == s
    decreases |rs|
  {
    if rs != [] {
      var n := |rs| - 1;
      RunTracksReadings(s, rs[..n]);
    }
  }

  /** Just before reading `n`, the flag says whether the previous reading was above. */
  lemma FlagBeforeReading(s: Sensor, rs: seq<Reading>, n: nat)
    requires n < |rs|
    ensures RunReads(s, rs[..n]).hasChanged == WasAbove(s, rs, n)
    ensures RunReads(s, rs[..n]).current == PreviousMilli(s, rs, n)
    ensures RunReads(s, rs[..n]).threshold == s.threshold
  {
    RunTracksReadings(s, rs[..n]);
    if n == 0 {
      assert rs[..n] == [];
    }
  }

  /**
    `backToNormal` is sticky and raised by edges only: after a run it is
    set exactly when it was set before or some reading was a
    true-to-false edge.
   */
  lemma {:induction false} BackToNormalIffEdge(s: Sensor, rs: seq<Reading>)
    ensures RunReads(s, rs).backToNormal
            <==> s.backToNormal || exists i :: 0 <= i < |rs| && IsEdge(s, rs, i)
    decreases |rs|
  {
    if rs != [] {
      var n := |rs| - 1;
      var init := rs[..n];
      BackToNormalIffEdge(s, init);
      FlagBeforeReading(s, rs, n);
      assert forall i :: 0 <= i < n ==> (IsEdge(s, init, i) <==> IsEdge(s, rs, i)) by {
        forall i | 0 <= i < n
          ensures IsEdge(s, init, i) <==> IsEdge(s, rs, i)
        {
          assert init[i] == rs[i];
          if i > 0 {
            assert init[i - 1] == rs[i - 1];
          }
        }
      }
      if RunReads(s, rs).backToNormal && !s.backToNormal {
        if !RunReads(s, init).backToNormal {
          assert IsEdge(s, rs, n);
        }
      }
    }
  }

  /** A run with no edge leaves the sticky flag where it was. */
  lemma NoEdgeKeepsBackToNormal(s: Sensor, rs: seq<Reading>)
    requires forall i :: 0 <= i < |rs| ==> !IsEdge(s, rs, i)
    ensures RunReads(s, rs).backToNormal == s.backToNormal
  {
    BackToNormalIffEdge(s, rs);
  }

  /**
    The buffer after a run is the old buffer followed by every eligible
    reading, cut at `SamplingSize`: appends stop once it is full, and
    nothing already in it moves.
   */
  lemma {:induction false} SamplesAreCappedEligibleReadings(s: Sensor, rs: seq<Reading>)
    requires |s.samples| <= SamplingSize
    ensures RunReads(s, rs).samples == Cap(s.samples + EligibleSamples(s, rs))
    decreases |rs|
  {
    if rs == [] {
      assert s.samples + [] == s.samples;
    } else {
      var n := |rs| - 1;
      var init := rs[..n];
      SamplesAreCappedEligibleReadings(s, init);
      FlagBeforeReading(s, rs, n);
      var a := s.samples + EligibleSamples(s, init);
      var before := RunReads(s, init);
      assert before.samples == Cap(a);
      if IsEligible(s, rs, n) {
        var x := rs[n];
        assert s.samples + EligibleSamples(s, rs) == a + [x];
        if |a| < SamplingSize {
          assert RunReads(s, rs).samples == a + [x];
        } else {
          assert (a + [x])[..SamplingSize] == a[..SamplingSize];
        }
      } else {
        assert s.samples + EligibleSamples(s, rs) == a;
      }
    }
  }

  /** A run from a valid sensor keeps it valid; in particular the buffer never exceeds its capacity. */
  lemma {:induction false} RunPreservesValid(s: Sensor, rs: seq<Reading>)
    requires Valid(s)
    ensures Valid(RunReads(s, rs))
    ensures |RunReads(s, rs).samples| <= SamplingSize
    decreases |rs|
  {
    if rs != [] {
      RunPreservesValid(s, rs[..|rs| - 1]);
    }
  }

  /** `is_sampling_ready` as written never holds, whatever the readings. */
  lemma SamplingNeverReadyAsWritten(rs: seq<Reading>)
    ensures !IsSamplingReadyAsWritten(RunReads(New(), rs))
  {
    RunPreservesValid(New(), rs);
  }

  /** Running two sequences one after the other is running their concatenation. */
  lemma {:induction false} RunAppend(s: Sensor, a: seq<Reading>, b: seq<Reading>)
    ensures RunReads(s, a + b) == RunReads(RunReads(s, a), b)
    decreases |b|
  {
    if b == [] {
      assert a + b == a;
    } else {
      var n := |b| - 1;
      assert (a + b)[..|a + b| - 1] == a + b[..n];
      RunAppend(s, a, b[..n]);
    }
  }

  /** Every reading of the run is eligible for sampling. */
  predicate AllEligible(s: Sensor, rs: seq<Reading>) {
    forall i :: 0 <= i < |rs| ==> IsEligible(s, rs, i)
  }

  /** When every reading is eligible, each one contributes a buffer entry. */
  lemma {:induction false} AllEligibleAreSampled(s: Sensor, rs: seq<Reading>)
    requires AllEligible(s, rs)
    ensures |EligibleSamples(s, rs)| == |rs|
    decreases |rs|
  {
    if rs != [] {
      var n := |rs| - 1;
      var init := rs[..n];
      assert AllEligible(s, init) by {
        forall i | 0 <= i < n
          ensures IsEligible(s, init, i)
        {
          assert IsEligible(s, rs, i);
          assert init[i] == rs[i];
          if i > 0 {
            assert init[i - 1] == rs[i - 1];
          }
        }
      }
      AllEligibleAreSampled(s, init);
      assert IsEligible(s, rs, n);
    }
  }

  /** A run that keeps cooling above the threshold fills the buffer up to its capacity. */
  lemma FallingRunFillsBuffer(s: Sensor, rs: seq<Reading>)
    requires |s.samples| <= SamplingSize
    requires AllEligible(s, rs)
    ensures |RunReads(s, rs).samples|
            == if |s.samples| + |rs| <= SamplingSize then |s.samples| + |rs| else SamplingSize
  {
    SamplesAreCappedEligibleReadings(s, rs);
    AllEligibleAreSampled(s, rs);
  }

  /**
    With the boundary `>= SamplingSize`, readiness is reached: after one
    reading of 50 degrees and 300 readings falling from 40 degrees, the
    buffer is full while the water is still cooling above the threshold.
   */
  lemma SamplingReadyIsReachable()
    ensures exists rs :: IsSamplingReady(RunReads(New(), rs))
  {
    var first := [Reading(0, 50000)];
    var s0 := RunReads(New(), first);
    assert first[..0] == [];
    assert s0 == Read(New(), 50000, 0);
    var falling := seq(SamplingSize, i requires 0 <= i => Reading(i + 1, 40000 - i));
    assert AllEligible(s0, falling);
    FallingRunFillsBuffer(s0, falling);
    RunTracksReadings(s0, falling);
    RunAppend(New(), first, falling);
    assert IsSamplingReady(RunReads(New(), first + falling));
  }
}

=== FILE: text.dfy ===
/**
  The two string operations of Rust's standard library that the monitor
  relies on: `str::trim` (strip Unicode white space at both ends) and
  `str::split` with a single-character pattern. Strings are `seq<char>`;
  a `char` is a Unicode scalar value.
 */
module Text {

  /** Rust's `char::is_whitespace`: the Unicode White_Space property. */
  predicate IsWhitespace(c: char) {
    var n := c as int;
    || (0x09 <= n <= 0x0D) || n == 0x20 || n == 0x85 || n == 0xA0 || n == 0x1680
    || (0x2000 <= n <= 0x200A) || n == 0x2028 || n == 0x2029 || n == 0x202F
    || n == 0x205F || n == 0x3000
  }

  predicate AllWhitespace(s: string) {
    forall i :: 0 <= i < |s| ==> IsWhitespace(s[i])
  }

  /** No white space at either end. */
  predicate IsTrimmed(s: string) {
    s == [] || (!IsWhitespace(s[0]) && !IsWhitespace(s[|s| - 1]))
  }

  /** No character of `s` is `c`. */
  predicate Excludes(s: string, c: char) {
    forall i :: 0 <= i < |s| ==> s[i] != c
  }

  /** The first index at or after `i` that is not white space, or `|s|`. */
  function SkipLeading(s: string, i: nat): (k: nat)
    requires i <= |s|
    ensures i <= k <= |s|
    ensures forall j :: i <= j < k ==> IsWhitespace(s[j])
    ensures k < |s| ==> !IsWhitespace(s[k])
    decreases |s| - i
  {
    if i < |s| && IsWhitespace(s[i]) then SkipLeading(s, i + 1) else i
  }

  /** The end of `s[lo..j]` once its trailing white space is dropped. */
  function SkipTrailing(s: string, lo: nat, j: nat): (k: nat)
    requires lo <= j <= |s|
    ensures lo <= k <= j
    ensures forall m :: k <= m < j ==> IsWhitespace(s[m])
    ensures k > lo ==> !IsWhitespace(s[k - 1])
    decreases j
  {
    if j > lo && IsWhitespace(s[j - 1]) then SkipTrailing(s, lo, j - 1) else j
  }

  /**
    `str::trim`: `trim_start` then `trim_end`, so the middle of `s` once
    white space is gone from both ends.
   */
  function Trim(s: string): (r: string)
    ensures IsTrimmed(r)
    ensures |r| <= |s|
    ensures forall c :: Excludes(s, c) ==> Excludes(r, c)
  {
    var i := SkipLeading(s, 0);
    var j := SkipTrailing(s, i, |s|);
    s[i..j]
  }

  lemma {:induction false} SkipLeadingStopsAt(s: string, i: nat, k: nat)
    requires i <= k <= |s|
    requires forall j :: i <= j < k ==> IsWhitespace(s[j])
    requires k < |s| ==> !IsWhitespace(s[k])
    ensures SkipLeading(s, i) == k
    decreases k - i
  {
    if i < k {
      SkipLeadingStopsAt(s, i + 1, k);
    }
  }

  lemma {:induction false} SkipTrailingStopsAt(s: string, lo: nat, j: nat, k: nat)
    requires lo <= k <= j <= |s|
    requires forall m :: k <= m < j ==> IsWhitespace(s[m])
    requires k > lo ==> !IsWhitespace(s[k - 1])
    ensures SkipTrailing(s, lo, j) == k
    decreases j - k
  {
    if k < j {
      SkipTrailingStopsAt(s, lo, j - 1, k);
    }
  }

  /**
    Trim is the unique decomposition of a string into a white-space
    prefix, a trimmed middle and a white-space suffix.
   */
  lemma TrimIsUniqueDecomposition(p: string, m: string, q: string)
    requires AllWhitespace(p) && AllWhitespace(q) && IsTrimmed(m)
    ensures Trim(p + m + q) == m
  {
    var s := p + m + q;
    if m == [] {
      assert AllWhitespace(s);
      SkipLeadingStopsAt(s, 0, |s|);
      SkipTrailingStopsAt(s, |s|, |s|, |s|);
    } else {
      var i := |p|;
      var j := |p| + |m|;
      assert s[i] == m[0] && s[j - 1] == m[|m| - 1];
      SkipLeadingStopsAt(s, 0, i);
      SkipTrailingStopsAt(s, i, |s|, j);
      assert s[i..j] == m;
    }
  }

  /** Trimming a trimmed string changes nothing. */
  lemma TrimOfTrimmed(s: string)
    requires IsTrimmed(s)
    ensures Trim(s) == s
  {
    var empty: string := [];
    assert empty + s + empty == s;
    TrimIsUniqueDecomposition(empty, s, empty);
  }

  /** Number of occurrences of `c` in `s`. */
  function Count(s: string, c: char): nat
    decreases |s|
  {
    if s == [] then 0
    else (if s[0] == c then 1 else 0) + Count(s[1..], c)
  }

  lemma {:induction false} CountAppend(a: string, b: string, c: char)
    ensures Count(a + b, c) == Count(a, c) + Count(b, c)
    decreases |a|
  {
    if a == [] {
      assert a + b == b;
    } else {
      assert (a + b)[1..] == a[1..] + b;
      CountAppend(a[1..], b, c);
    }
  }

  lemma {:induction false} ExcludedCountsZero(s: string, c: char)
    requires Excludes(s, c)
    ensures Count(s, c) == 0
    decreases |s|
  {
    if s != [] {
      ExcludedCountsZero(s[1..], c);
    }
  }

  /** The first index at or after `i` holding `c`, or `|s|`. */
  function IndexOf(s: string, c: char, i: nat): (k: nat)
    requires i <= |s|
    ensures i <= k <= |s|
    ensures forall j :: i <= j < k ==> s[j] != c
    ensures k < |s| ==> s[k] == c
    decreases |s| - i
  {
    if i < |s| && s[i] != c then IndexOf(s, c, i + 1) else i
  }

  lemma {:induction false} IndexOfStopsAt(s: string, c: char, i: nat, k: nat)
    requires i <= k <= |s|
    requires forall j :: i <= j < k ==> s[j] != c
    requires k < |s| ==> s[k] == c
    ensures IndexOf(s, c, i) == k
    decreases k - i
  {
    if i < k {
      IndexOfStopsAt(s, c, i + 1, k);
    }
  }

  /** Joins at least one part, putting `sep` between neighbours. */
  function Join(parts: seq<string>, sep: char): string
    requires |parts| >= 1
    decreases |parts|
  {
    if |parts| == 1 then parts[0] else parts[0] + [sep] + Join(parts[1..], sep)
  }

  predicate NoneContains(parts: seq<string>, sep: char) {
    forall i :: 0 <= i < |parts| ==> Excludes(parts[i], sep)
  }

  /**
    `str::split` on one character: the pieces between separators, empty
    pieces included, so there is always one more piece than separators.
   */
  function Split(s: string, sep: char): (parts: seq<string>)
    ensures |parts| == Count(s, sep) + 1
    ensures NoneContains(parts, sep)
    ensures Join(parts, sep) == s
    decreases |s|
  {
    var k := IndexOf(s, sep, 0);
    if k == |s| then
      ExcludedCountsZero(s, sep);
      [s]
    else
      var head := s[..k];
      var tail := s[k + 1..];
      var rest := Split(tail, sep);
      assert s == head + ([sep] + tail);
      CountAppend(head, [sep] + tail, sep);
      ExcludedCountsZero(head, sep);
      var parts := [head] + rest;
      assert parts[1..] == rest;
      parts
  }

  /** Splitting undoes joining, provided no part holds the separator. */
  lemma {:induction false} SplitJoinRoundTrip(parts: seq<string>, sep: char)
    requires |parts| >= 1
    requires NoneContains(parts, sep)
    ensures Split(Join(parts, sep), sep) == parts
    decreases |parts|
  {
    var s := Join(parts, sep);
    var head := parts[0];
    assert Excludes(head, sep);
    if |parts| == 1 {
      IndexOfStopsAt(s, sep, 0, |s|);
    } else {
      var rest := parts[1..];
      assert NoneContains(rest, sep);
      assert s == head + [sep] + Join(rest, sep);
      IndexOfStopsAt(s, sep, 0, |head|);
      assert s[..|head|] == head;
      assert s[|head| + 1..] == Join(rest, sep);
      SplitJoinRoundTrip(rest, sep);
      assert [head] + rest == parts;
    }
  }
}
